=== FILE: README.md ===
# taurus button and date field, modelled in Dafny

This project models two widgets of the taurus browser toolkit.

The **button** (`src/button/button.js`) covers these behaviours:
- the pressed/released state machine, whose notifications can be suppressed;
- the click gate (`onClick` → `doToggle` → `maybeShowMenu` → `fireHandler`);
- the rule that shows or suppresses the button's menu;
- the owner back-reference between a button and its menu;
- registration of a rendered button with the button registry;
- the event map handed to the base view, and the template data.

The **date field** (`src/form/field/date.js`) covers these behaviours:
- the fallback rules of its value pipeline (`parseDate`, `rawToValue`, `getSubmitValue`, `initValue`);
- the left/right decision of `alignPicker`.

Files:
- `button_spec.dfy`, module `ButtonSpec`: the button's behaviour as functions on values (`ButtonView`). Notifications and outgoing calls are an appended log of `Call` values, so "fired exactly once" can be stated. The lemmas here cover sequences of toggles and clicks, and the click path as written (see Findings).
- `button.dfy`, module `Buttons`:
  - the classes `Button`, `Menu` and `Registry<T>`;
  - the `Button` methods `Toggle`, `DoToggle`, `FireHandler`, `ShowMenu`, `MaybeShowMenu` and `OnClick`, and the as-written `ShowMenuAsWritten` and `OnClickAsWritten`, are each proved to move `View()` exactly as the matching `ButtonSpec` function says;
  - `SetMenu`, `BeforeRender`, `Render` and `DelegateEvents` state their new state directly;
  - `SetMenu` and the menu path are also proved to keep the ownership link `Linked()`.
- `date_field.dfy`, module `DateField`: the value functions and the `DateField` class with `InitValue` and `AlignPicker`.
- `js_values.dfy`, `wrappers.dfy`: JavaScript truthiness, moments, `Option` and `Result`.

Inputs that come from outside the core are parameters:
- the date library (`moment(text, format)`, `moment(value)` for values other than numbers and Dates, `taurus.Date.parseDate`, `format`, and the calendar day a moment reads as) is a record of functions (`DateLibrary`) and is never interpreted; `moment(number)`, `moment(date)` and `utc()` are interpreted, as an instant in local or UTC mode;
- "now" (`moment()`) is passed in;
- pixel measurements are integers;
- whether a 'click' listener returned `false` is the `vetoed` flag.

Behaviours of the code that the model makes explicit:
- A click never suppresses an empty menu. `maybeShowMenu` calls `showMenu()` without `fromEvent` (src/button/button.js:105), so the `showEmptyMenu` check at line 187 is never consulted on the click path (`ButtonSpec.ClickShowsEmptyMenu`). Only a direct `showMenu(true)` call suppresses an empty menu (`ButtonSpec.ShowMenuFromEventSuppressesEmpty`).
- `getTplData` extends the button's own keys with the base view's data (`$.extend(own, base)`, line 70), so the base view's keys win on a clash.
- `getTplData` sets `menu` from `!_.isUndefined(this.menu)`. After `setMenu(null)`, `menu` is null, which is not undefined, so the flag is true. The model tracks this with `menuDefined`.
- A click can only press. `doToggle` passes `$(e.target)`, which is always truthy, to `toggle`, and `toggle` coerces it with `!!`. So over any run of clicks, including clicks after one whose handler threw, the button fires at most one 'toggle' event (`ButtonSpec.ClicksToggleAtMostOnce`).
- `rawToValue`'s fallbacks `|| rawValue || null` are never reached. `moment(...)` always returns an object, which is truthy.

## Model

| member | source | states |
|---|---|---|
| ButtonSpec.Toggle | src/button/button.js:227-239 | the target is the complement without an argument and the argument's truthiness otherwise; an equal target changes nothing (no class change, no event); on a transition the pressed class is present iff pressed, other classes are kept, and exactly one 'toggle' event plus one toggleHandler call (if configured) are logged unless suppressed, in which case nothing is logged |
| ButtonSpec.DoToggle | src/button/button.js:75-80 | after a click-driven toggle the button is pressed iff it was pressed or toggling is enabled; a pressed button, or one without enableToggle, is left entirely unchanged (a click never releases) |
| ButtonSpec.FireHandler | src/button/button.js:82-91 | exactly one 'click' event is logged, followed by the handler call iff a handler is configured and no listener vetoed; nothing else changes |
| ButtonSpec.ShowMenu | src/button/button.js:170-192 | throws iff the button has no menu while rendered or its menu is not in the registry (the menu is then dropped); without a menu nothing changes, whether it throws or not; does nothing when not rendered; otherwise a visible menu is hidden first and showBy is called iff not from an event, showEmptyMenu, or the menu has items, and the menu ends visible exactly then |
| ButtonSpec.MaybeShowMenu | src/button/button.js:102-107 | without a menu, with a visibly shown menu, or with ignoreNextClick nothing happens; otherwise it is showMenu with no fromEvent |
| ButtonSpec.OnClick | src/button/button.js:110-126 | a non-keydown event with a non-primary button, or a disabled button, changes nothing; afterwards pressed holds iff it held or the click activated a toggle-enabled button; a throw only comes from an unregistered menu |
| ButtonSpec.OnClickCallOrder | src/button/button.js:121-125 | the calls a click adds come in the order toggle, then menu, then click/handler; 'click' is fired iff the click activated the button and nothing threw, and the handler iff additionally a handler is configured and not vetoed |
| ButtonSpec.OnClickToggleCount | src/button/button.js:75-80 | one click fires a 'toggle' event exactly when it moves the button from released to pressed |
| ButtonSpec.ClicksNeverRelease | src/button/button.js:77-78 | no sequence of clicks, each vetoed or not by its own 'click' listeners, releases a pressed button; a click that throws ends only its own handler, and the next click starts from the state it left |
| ButtonSpec.ClicksToggleAtMostOnce | src/button/button.js:75-80 | any sequence of clicks, each vetoed or not, clicks that throw and the clicks after them included, fires at most one 'toggle' event, and none if the button starts pressed |
| ButtonSpec.ToggleTimesFlipsAndCounts | src/button/button.js:227-239 | n argument-less toggles flip the state iff n is odd and fire exactly n 'toggle' events |
| ButtonSpec.ToggleTwiceRestores | src/button/button.js:227-239 | two argument-less toggles restore pressed, fire exactly two 'toggle' events, and leave the pressed class in step with the state |
| ButtonSpec.ClickShowsEmptyMenu | src/button/button.js:102-107 | a click on a rendered button shows an empty, hidden, registered menu even with showEmptyMenu off |
| ButtonSpec.ShowMenuFromEventSuppressesEmpty | src/button/button.js:187-189 | called from an event, showMenu leaves an empty menu visible and calls showBy iff showEmptyMenu is set |
| ButtonSpec.DelegatedEvents | src/button/button.js:240-244 | the map handed to the base view is the caller's map (or an empty one) with the click event bound to onClick and every other key kept |
| ButtonSpec.ShowMenuAsWritten | src/button/button.js:170-177 | as written, a button holding a menu, registered or not, throws and is left without it, its log untouched; without a menu it behaves as ShowMenu |
| ButtonSpec.OnClickAsWritten | src/button/button.js:110-126 | as written, a click on a button without a menu behaves exactly as OnClick |
| ButtonSpec.FirstClickDropsMenuAsWritten | src/button/button.js:102-126 | as written, the first activating click on a button with a hidden menu toggles and then throws: no 'click' is fired, the menu is dropped, and the next click behaves as OnClick without a menu and completes; with the intended lookup the same click completes when the menu is registered |
| Buttons.Registry.Register | src/button/button.js:164 | the instance is registered afterwards; registering a registered instance changes nothing, otherwise it is appended in registration order |
| Buttons.Lookup | src/button/button.js:214 | the result is a registered menu that the argument designates (the instance itself or a menu with that id), or null when no registered menu matches |
| Buttons.Button.constructor | src/button/button.js:19-49 | a new button is released unless configured pressed, unrendered, with the click event defaulting to 'click', holding a configured menu instance as given (undefined when none is configured), with classes btn and btn-default and an empty log |
| Buttons.Button.GetTplData | src/button/button.js:69-74 | the data has the base keys plus text and menu; base values win on a clash; text defaults to '' and menu is whether the menu property is defined |
| Buttons.Button.Toggle | src/button/button.js:227-239 | the new state is ButtonSpec.Toggle of the old one; the menu is untouched |
| Buttons.Button.DoToggle | src/button/button.js:75-80 | the new state is ButtonSpec.DoToggle of the old one |
| Buttons.Button.FireHandler | src/button/button.js:82-91 | the new state is ButtonSpec.FireHandler of the old one |
| Buttons.Button.HasVisibleMenu | src/button/button.js:97-100 | true iff the button has a menu that is rendered and visible |
| Buttons.Button.SetMenu | src/button/button.js:201-219 | the old menu's parentMenu is cleared, and so is its ownerItem unless it is the new menu; a falsy argument leaves menu null; otherwise menu is the registry's resolution, which owns the button, or undefined with a throw; visibility, rendering and items of both menus are untouched |
| Buttons.Button.ShowMenu | src/button/button.js:170-192 | the new state is ButtonSpec.ShowMenu of the old one; the menu is kept or dropped, never replaced; the ownership link holds and the menu's parentMenu is kept; a dropped menu is left entirely unchanged and the menu property is then undefined; without a menu, whether the property is defined is unchanged |
| Buttons.Button.MaybeShowMenu | src/button/button.js:102-107 | the new state is ButtonSpec.MaybeShowMenu of the old one; the ownership link is preserved, and established whenever a held hidden menu is shown (a configured menu gets the button as owner); the menu's parentMenu is kept; when nothing is shown (no menu, a visible menu, or ignoreNextClick) the menu object and definedness are unchanged; a dropped menu is left unchanged and the property undefined |
| Buttons.Button.OnClick | src/button/button.js:110-126 | the new state is ButtonSpec.OnClick of the old one; the ownership link is preserved, and established when an activating click reaches showMenu (a configured menu gets the button as owner); the menu's parentMenu is kept; when the click does not activate or shows nothing, the menu object and definedness are unchanged; a dropped menu is left unchanged and the property undefined |
| Buttons.Button.SetMenuAsWritten | src/button/button.js:201-219 | as written: the old menu's parentMenu and ownerItem are cleared; a falsy argument leaves menu null; a truthy one throws before menu is assigned, so a button that held a menu keeps it but no longer satisfies the ownership link |
| Buttons.Button.ShowMenuAsWritten | src/button/button.js:170-192 | as written, the new state is ButtonSpec.ShowMenuAsWritten of the old one; a held menu is dropped with a throw, the property left undefined, and the menu object is never modified |
| Buttons.Button.OnClickAsWritten | src/button/button.js:110-126 | as written, the new state is ButtonSpec.OnClickAsWritten of the old one; the menu is kept or dropped, never replaced, and never modified; a dropped menu leaves the property undefined (so getTplData's menu flag turns false), and otherwise definedness is unchanged |
| Buttons.Button.BeforeRender | src/button/button.js:152-160 | the disabled attribute is set iff it was set or the button is disabled, and the pressed class is added iff pressed; a second call changes nothing |
| Buttons.Button.Render | src/button/button.js:161-165 | beforeRender's effects, the button is rendered, and it is registered once in the button registry |
| Buttons.Button.DelegateEvents | src/button/button.js:240-244 | the bound map is ButtonSpec.DelegatedEvents of the argument and the button's click event |
| DateField.ChooseAlignment | src/form/field/date.js:34-44 | exactly one of the two alignments; right alignment iff the picker's width plus its left offset exceeds the window width |
| DateField.DateField.AlignPicker | src/form/field/date.js:22-46 | exactly one alignment is passed to doAlign, the one ChooseAlignment gives; the right-hand position does not take part |
| DateField.ParseDate | src/form/field/date.js:64-70 | a falsy value or a Date is returned unchanged; otherwise the result is the library's parse when truthy and null when not; a falsy result is the input or null |
| DateField.GetSubmitValue | src/form/field/date.js:71-74 | '' for a falsy value; a moment is formatted with the field's format at the same instant in UTC mode; any other truthy value throws |
| DateField.RawToValue | src/form/field/date.js:75-77 | the result is always the parsed moment and always truthy; the fallbacks are never reached |
| DateField.ValueToRaw | src/form/field/date.js:78-81 | the display text is the library's formatting of the moment, and it reads back to the moment's own day whenever the library reads back its own format |
| DateField.RawRoundTrip | src/form/field/date.js:75-81 | raw text made from a value reads back through rawToValue as a moment on the same day (the library's own notion of a moment's day), whenever the library reads back its own format; the only thing rawToValue adds is its fallbacks, which are never reached |
| DateField.InitialValue | src/form/field/date.js:50-60 | the stored value is always a moment: now for a falsy value, a string parsed with the format, a non-zero timestamp or a Date as that instant in local mode, anything else converted by the library |
| DateField.SubmitAfterInitSucceeds | src/form/field/date.js:50-74 | after initValue, getSubmitValue never throws |
| DateField.TimestampValue | src/form/field/date.js:57-61 | a non-zero millisecond timestamp becomes the local moment of that instant and is submitted as the same instant formatted in UTC mode |
| DateField.DateField.constructor | src/form/field/date.js:10 | the format defaults to MM/DD/YYYY |
| DateField.DateField.InitValue | src/form/field/date.js:50-63 | this.value becomes InitialValue of the old value, and the parent initValue runs once, seeing the new value |

## Findings

| source | as written | input that shows it | evidently intended | confidence | as-written member | corrected member |
|---|---|---|---|---|---|---|
| src/button/button.js:214 | `Manager.get(menu)`, but the module binds the menu registry as `MenuManager` (line 7); `Manager` is bound nowhere in the module | a click on a button holding a hidden registered menu, on a page without a global `Manager`: `showMenu` deletes `me.menu`, `setMenu` throws a ReferenceError, 'click' is never fired and the button has lost its menu for good; `setMenu(m)` called directly detaches the old menu and then throws, leaving the button holding a menu that no longer names it as owner | `MenuManager.get(menu)` | high that the name is unbound in the module; a page global named `Manager` would mask it; not executed | ButtonSpec.FirstClickDropsMenuAsWritten, Buttons.Button.SetMenuAsWritten | Buttons.Button.SetMenu |

## Left out

- `onMouseDown`: DOM event plumbing. It binds and unbinds a document-level mouseup listener and adds the pressed class to the event target.
- `doPreventDefault` and `getHref`: `preventDefault` on the DOM event. The URL logic is commented out.
- Buttons.Button.ShowMenu: a menu configured by id or by config object, and resolved lazily on the first `showMenu`, is not modelled. `menu` only holds a `Menu` instance (from the constructor or from `SetMenu`); resolution by id is covered only through `SetMenu` with `ById`.
- Buttons.Button.SetMenu: `destroyMenu` is accepted and ignored. The destroying call in the source is commented out, so the old menu is never destroyed.
- `createPicker`: constructs a picker widget and subscribes to its events.
- `getAlignEl`, `taurus.getPositionLeft`, `taurus.getPositionRight`, `$(window).width()`: pixel measurement. These values are integer parameters.
- DateField.GetSubmitValue: `moment.utc()` switches the moment it is called on to UTC mode in place. The model returns only the formatted string and does not record that mutation. The field's `getValue` is not part of this model, so whether it hands out the stored moment is unknown.
- The date library, `taurus.Date.parseDate`, and "now" are parameters and are not interpreted, apart from `moment(number)`, `moment(date)` and `utc()`.
- The base view is not part of this model. That covers `initialize`, the template engine, markup insertion, event binding, `destroy`, and the 'click' listeners' return value (the `vetoed` parameter). `Render` only marks the button rendered and registers it.
- `src/menu/menu.js` and the two registries' source files (`./manager`, `../menu/manager`) are not part of this model:
  - `Menu.Hide` and `Menu.ShowBy` set only the visibility flag;
  - `showBy` positioning (alignment, collision flipping) is not modelled;
  - `Registry` only registers, and `Lookup` resolves an instance or an id among registered menus;
  - unregistering on destroy is not modelled.
- Buttons.Button.DelegateEvents: the source writes the click binding into the caller's own map object. The model records only the map handed on, not the change to the caller's object.
- JavaScript `NaN` is not modelled. Numbers are integers, and a mouse `button` of 0 stands for both the primary button and an undefined property.

=== FILE: button.dfy ===
/**
 * The button widget and the objects it is linked to: its menu, the menu
 * registry that resolves menus, and the button registry a rendered button
 * joins. Every state-changing method is proved to follow the value-level
 * behaviour in module `ButtonSpec`.
 */
module Buttons {
  import opened Wrappers
  import opened ButtonSpec

  /** The DOM event that fires the handler unless configured otherwise (`clickEvent`). */
  const DefaultClickEvent: string := "click"

  /**
   * A process-wide table of live instances of one widget class, in
   * registration order (`ButtonManager`, `MenuManager`).
   */
  class Registry<T(==)> {
    var items: seq<T>

    constructor ()
      ensures items == []
    {
      items := [];
    }

    /** `register(x)`: adds `x` once; registering it again changes nothing. */
    method Register(x: T)
      modifies this
      ensures x in items
      ensures old(x in items) ==> items == old(items)
      ensures old(x !in items) ==> items == old(items) + [x]
    {
      if x !in items {
        items := items + [x];
      }
    }
  }

  /** A floating menu: who owns it, whether it is shown, how many items it has. */
  class Menu {
    const id: string
    var ownerItem: Button?
    var parentMenu: Menu?
    var rendered: bool
    var visible: bool
    var itemCount: nat

    constructor (id: string, itemCount: nat)
      ensures this.id == id && this.itemCount == itemCount
      ensures ownerItem == null && parentMenu == null && !rendered && !visible
    {
      this.id := id;
      this.itemCount := itemCount;
      ownerItem := null;
      parentMenu := null;
      rendered := false;
      visible := false;
    }

    /** `hide()`. */
    method Hide()
      modifies this`visible
      ensures !visible
    {
      visible := false;
    }

    /** `showBy(owner, align)`, reduced to its effect on visibility. */
    method ShowBy()
      modifies this`visible
      ensures visible
    {
      visible := true;
    }
  }

  /** The argument of `setMenu`: nothing (null or undefined), a menu instance, or a menu id. */
  datatype MenuArg = NoMenu | Instance(menu: Menu) | ById(id: string)

  /** JavaScript truthiness of the argument; the empty id is falsy. */
  predicate ArgTruthy(arg: MenuArg) {
    match arg
    case NoMenu => false
    case Instance(_) => true
    case ById(id) => id != ""
  }

  /** Whether the registry entry `m` is the one `arg` designates. */
  predicate Designates(arg: MenuArg, m: Menu) {
    match arg
    case NoMenu => false
    case Instance(x) => m == x
    case ById(id) => m.id == id
  }

  /** The first menu in `ms` that `arg` designates, or null when there is none. */
  function Find(ms: seq<Menu>, arg: MenuArg): (r: Menu?)
    ensures r != null ==> r in ms && Designates(arg, r)
    ensures r == null ==> forall i :: 0 <= i < |ms| ==> !Designates(arg, ms[i])
  {
    if ms == [] then null
    else if Designates(arg, ms[0]) then ms[0]
    else Find(ms[1..], arg)
  }

  /**
   * `MenuManager.get(arg)`: the registered menu `arg` designates. A miss is
   * `undefined` in this model (`null` here, with `menuDefined` false where the
   * result is stored); the registry's own source is not part of this model.
   */
  function Lookup(registry: Registry<Menu>, arg: MenuArg): (r: Menu?)
    reads registry
    ensures r != null ==> r in registry.items && Designates(arg, r)
    ensures r == null ==> forall i :: 0 <= i < |registry.items| ==> !Designates(arg, registry.items[i])
  {
    Find(registry.items, arg)
  }

  /** A template variable's value. */
  datatype TplValue = Text(s: string) | Flag(b: bool)

  /**
   * Options a button is created with; `clickEvent` falls back to
   * `DefaultClickEvent`, and `menu` is a menu instance stored as given.
   */
  datatype ButtonConfig = ButtonConfig(
    text: Option<string>,
    menu: Option<Menu>,
    pressed: bool,
    disabled: bool,
    enableToggle: bool,
    allowDepress: bool,
    showEmptyMenu: bool,
    clickEvent: Option<string>,
    hasHandler: bool,
    hasToggleHandler: bool)

  class Button {
    const buttonManager: Registry<Button>
    const menuManager: Registry<Menu>
    const clickEvent: string
    const text: Option<string>
    const disabled: bool
    const enableToggle: bool
    /** Stands for `allowDepress !== false`. */
    const allowDepress: bool
    const showEmptyMenu: bool
    /** No code of the button sets it, so it keeps its initial falsy value. */
    const ignoreNextClick: bool
    const hasHandler: bool
    const hasToggleHandler: bool

    var pressed: bool
    var rendered: bool
    var menu: Menu?
    /** False while the `menu` property is undefined (as opposed to null). */
    var menuDefined: bool
    /** The classes of the button's element. */
    var classes: set<string>
    /** Whether the element carries the `disabled` attribute. */
    var disabledAttr: bool
    /** The event map last handed to the base view's `delegateEvents`. */
    var boundEvents: map<string, string>
    /** Notifications fired and calls made, oldest first. */
    var log: seq<Call>

    constructor (cfg: ButtonConfig, buttonManager: Registry<Button>, menuManager: Registry<Menu>)
      ensures this.buttonManager == buttonManager && this.menuManager == menuManager
      ensures clickEvent == cfg.clickEvent.GetOr(DefaultClickEvent) && text == cfg.text && disabled == cfg.disabled
      ensures enableToggle == cfg.enableToggle && allowDepress == cfg.allowDepress
      ensures showEmptyMenu == cfg.showEmptyMenu && !ignoreNextClick
      ensures hasHandler == cfg.hasHandler && hasToggleHandler == cfg.hasToggleHandler
      ensures pressed == cfg.pressed && !rendered
      ensures menu == (if cfg.menu.Some? then cfg.menu.value else null) && menuDefined == cfg.menu.Some?
      ensures classes == BaseClasses && !disabledAttr && boundEvents == map[] && log == []
    {
      this.buttonManager := buttonManager;
      this.menuManager := menuManager;
      clickEvent := cfg.clickEvent.GetOr(DefaultClickEvent);
      text := cfg.text;
      disabled := cfg.disabled;
      enableToggle := cfg.enableToggle;
      allowDepress := cfg.allowDepress;
      showEmptyMenu := cfg.showEmptyMenu;
      ignoreNextClick := false;
      hasHandler := cfg.hasHandler;
      hasToggleHandler := cfg.hasToggleHandler;
      pressed := cfg.pressed;
      rendered := false;
      menu := if cfg.menu.Some? then cfg.menu.value else null;
      menuDefined := cfg.menu.Some?;
      classes := BaseClasses;
      disabledAttr := false;
      boundEvents := map[];
      log := [];
    }

    /** The button's state as the value-level behaviour sees it. */
    ghost function View(): ButtonView
      reads this, menu, menuManager
    {
      ButtonView(pressed, classes, log,
        if menu == null then None
        else Some(MenuState(menu in menuManager.items, menu.rendered, menu.visible, menu.itemCount)))
    }

    /** The configuration the click path reads. */
    function Config(): Settings
      reads this
    {
      Settings(enableToggle, allowDepress, disabled, rendered, showEmptyMenu, ignoreNextClick,
               hasHandler, hasToggleHandler)
    }

    /** The ownership link: a menu the button holds names the button as its owner. */
    ghost predicate Linked()
      reads this, menu
    {
      menu != null ==> menu.ownerItem == this && menuDefined
    }

    /** `getTplData()`: the button's keys, overridden by the base view's on a clash. */
    function GetTplData(base: map<string, TplValue>): (r: map<string, TplValue>)
      reads this
      ensures r.Keys == base.Keys + {"text", "menu"}
      ensures forall k :: k in base ==> r[k] == base[k]
      ensures "text" !in base ==> r["text"] == Text(text.GetOr(""))
      ensures "menu" !in base ==> r["menu"] == Flag(menuDefined)
    {
      map["text" := Text(text.GetOr("")), "menu" := Flag(menuDefined)] + base
    }

    /** `toggle(state, suppressEvent)`. */
    method Toggle(state: Option<bool>, suppressEvent: bool)
      modifies this`pressed, this`classes, this`log
      ensures View() == ButtonSpec.Toggle(old(View()), state, suppressEvent, hasToggleHandler)
    {
      var target := if state.None? then !pressed else state.value;
      if target != pressed {
        classes := if target then classes + {PressedCls} else classes - {PressedCls};
        pressed := target;
        if !suppressEvent {
          log := log + [ToggleEvent(target)];
          if hasToggleHandler {
            log := log + [ToggleHandler(target)];
          }
        }
      }
    }

    /** `doToggle(e)`: the state passed is `$(e.target)`, which is truthy. */
    method DoToggle(e: DomEvent)
      modifies this`pressed, this`classes, this`log
      ensures View() == ButtonSpec.DoToggle(old(View()), Config())
    {
      if enableToggle && (allowDepress || !pressed) {
        Toggle(Some(true), false);
      }
    }

    /** `fireHandler(e)`; `vetoed` says whether a 'click' listener returned false. */
    method FireHandler(vetoed: bool)
      modifies this`log
      ensures View() == ButtonSpec.FireHandler(old(View()), Config(), vetoed)
    {
      log := log + [ClickEvent];
      if !vetoed && hasHandler {
        log := log + [Handler];
      }
    }

    /** `hasVisibleMenu()`. */
    predicate HasVisibleMenu()
      reads this, menu, menuManager
      ensures HasVisibleMenu() == ButtonSpec.HasVisibleMenu(View())
    {
      menu != null && menu.rendered && menu.visible
    }

    /**
     * `setMenu(arg, destroyMenu)`: detaches the old menu, then resolves `arg`
     * through the menu registry and becomes the owner of the result. When the
     * registry does not know `arg`, `menu` is left undefined and the owner
     * assignment throws. `destroyMenu` has no effect: the destroying call is
     * commented out.
     */
    method SetMenu(arg: MenuArg, destroyMenu: Option<bool>) returns (threw: bool)
      modifies this`menu, this`menuDefined, menu, Lookup(menuManager, arg)
      ensures old(menu) != null ==> old(menu).parentMenu == null
      ensures old(menu) != null && old(menu) != menu ==> old(menu).ownerItem == null
      ensures !ArgTruthy(arg) ==> menu == null && menuDefined && !threw
      ensures ArgTruthy(arg) ==> menu == Lookup(menuManager, arg) && threw == (menu == null) && menuDefined == !threw
      ensures Linked()
      ensures old(menu) != null ==> unchanged(old(menu)`rendered, old(menu)`visible, old(menu)`itemCount)
      ensures menu != null ==> unchanged(menu`rendered, menu`visible, menu`itemCount)
      ensures menu != null && menu != old(menu) ==> unchanged(menu`parentMenu)
    {
      var oldMenu := menu;
      if oldMenu != null {
        oldMenu.parentMenu := null;
        oldMenu.ownerItem := null;
      }
      threw := false;
      if ArgTruthy(arg) {
        menu := Lookup(menuManager, arg);
        menuDefined := menu != null;
        if menu == null {
          threw := true;
        } else {
          menu.ownerItem := this;
        }
      } else {
        menu := null;
        menuDefined := true;
      }
    }

    /**
     * `showMenu(fromEvent)`: re-links the menu through `setMenu` after
     * deleting the property (so the menu's `parentMenu` is kept), then, when
     * rendered, hides a visible menu and shows it unless suppressed.
     */
    method ShowMenu(fromEvent: bool) returns (threw: bool)
      modifies this`menu, this`menuDefined, this`log, menu
      ensures Run(View(), threw) == ButtonSpec.ShowMenu(old(View()), old(Config()), fromEvent)
      ensures menu == null || menu == old(menu)
      ensures Linked()
      ensures old(menu) != null ==> unchanged(old(menu)`parentMenu)
      ensures old(menu) != null && menu == null ==> unchanged(old(menu)) && !menuDefined
      ensures old(menu) == null ==> menuDefined == old(menuDefined)
    {
      var m := menu;
      threw := false;
      if m != null {
        menu := null;
        menuDefined := false;
        threw := SetMenu(Instance(m), None);
        if threw {
          return;
        }
      }
      if rendered {
        if menu == null {
          threw := true;
          return;
        }
        if menu.visible {
          menu.Hide();
          log := log + [MenuHide];
        }
        if !fromEvent || showEmptyMenu || menu.itemCount > 0 {
          menu.ShowBy();
          log := log + [MenuShowBy];
        }
      }
    }

    /** `maybeShowMenu()`. */
    method MaybeShowMenu() returns (threw: bool)
      modifies this`menu, this`menuDefined, this`log, menu
      ensures Run(View(), threw) == ButtonSpec.MaybeShowMenu(old(View()), old(Config()))
      ensures menu == null || menu == old(menu)
      ensures old(Linked()) ==> Linked()
      ensures old(menu) != null && !old(HasVisibleMenu()) && !ignoreNextClick ==> Linked()
      ensures old(menu) != null ==> unchanged(old(menu)`parentMenu)
      ensures old(menu == null || HasVisibleMenu()) || ignoreNextClick ==>
        (old(menu) != null ==> unchanged(old(menu))) && menuDefined == old(menuDefined)
      ensures old(menu) != null && menu == null ==> unchanged(old(menu)) && !menuDefined
      ensures old(menu) == null ==> menuDefined == old(menuDefined)
    {
      threw := false;
      if menu != null && !HasVisibleMenu() && !ignoreNextClick {
        threw := ShowMenu(false);
      }
    }

    /** `onClick(e)`; `vetoed` says whether a 'click' listener returned false. */
    method OnClick(e: DomEvent, vetoed: bool) returns (threw: bool)
      modifies this`pressed, this`classes, this`menu, this`menuDefined, this`log, menu
      ensures Run(View(), threw) == ButtonSpec.OnClick(old(View()), old(Config()), e, vetoed)
      ensures menu == null || menu == old(menu)
      ensures old(Linked()) ==> Linked()
      ensures Activates(e, old(Config())) && old(menu) != null && !old(HasVisibleMenu()) && !ignoreNextClick ==> Linked()
      ensures old(menu) != null ==> unchanged(old(menu)`parentMenu)
      ensures !Activates(e, old(Config())) || old(menu == null || HasVisibleMenu()) || ignoreNextClick ==>
        (old(menu) != null ==> unchanged(old(menu))) && menuDefined == old(menuDefined)
      ensures old(menu) != null && menu == null ==> unchanged(old(menu)) && !menuDefined
      ensures old(menu) == null ==> menuDefined == old(menuDefined)
    {
      threw := false;
      if e.eventType != KeyDown && e.button != 0 {
        return;
      }
      if !disabled {
        DoToggle(e);
        threw := MaybeShowMenu();
        if !threw {
          FireHandler(vetoed);
        }
      }
    }

    /**
     * `setMenu(arg, destroyMenu)` as written: the old menu is detached, then a
     * truthy `arg` makes it evaluate `Manager.get(arg)`. The module binds no
     * `Manager`, so that throws a ReferenceError before `me.menu` is assigned:
     * the button keeps the menu it has just detached, no longer its owner.
     */
    method SetMenuAsWritten(arg: MenuArg, destroyMenu: Option<bool>) returns (threw: bool)
      modifies this`menu, this`menuDefined, menu
      ensures old(menu) != null ==> old(menu).parentMenu == null && old(menu).ownerItem == null
      ensures old(menu) != null ==> unchanged(old(menu)`rendered, old(menu)`visible, old(menu)`itemCount)
      ensures !ArgTruthy(arg) ==> menu == null && menuDefined && !threw
      ensures ArgTruthy(arg) ==> threw && menu == old(menu) && menuDefined == old(menuDefined)
      ensures old(menu) != null && ArgTruthy(arg) ==> !Linked()
    {
      var oldMenu := menu;
      if oldMenu != null {
        oldMenu.parentMenu := null;
        oldMenu.ownerItem := null;
      }
      threw := false;
      if ArgTruthy(arg) {
        threw := true;
      } else {
        menu := null;
        menuDefined := true;
      }
    }

    /**
     * `showMenu(fromEvent)` as written, over `SetMenuAsWritten`: a held menu
     * is deleted and then re-linking it throws, so the button ends without a
     * menu, the menu is left untouched, and the hiding and showing after the
     * re-link are never reached.
     */
    method ShowMenuAsWritten(fromEvent: bool) returns (threw: bool)
      modifies this`menu, this`menuDefined
      ensures Run(View(), threw) == ButtonSpec.ShowMenuAsWritten(old(View()), old(Config()), fromEvent)
      ensures old(menu) != null ==> threw && menu == null && !menuDefined
      ensures old(menu) == null ==> menuDefined == old(menuDefined)
    {
      var m := menu;
      if m != null {
        menu := null;
        menuDefined := false;
        threw := SetMenuAsWritten(Instance(m), None);
      } else {
        // rendered: `menu.isVisible()` on the missing menu throws a TypeError
        threw := rendered;
      }
    }

    /** `onClick(e)` as written, over `ShowMenuAsWritten`. */
    method OnClickAsWritten(e: DomEvent, vetoed: bool) returns (threw: bool)
      modifies this`pressed, this`classes, this`menu, this`menuDefined, this`log
      ensures Run(View(), threw) == ButtonSpec.OnClickAsWritten(old(View()), old(Config()), e, vetoed)
      ensures menu == null || menu == old(menu)
      ensures old(menu) != null && menu == null ==> !menuDefined
      ensures menu != null || old(menu) == null ==> menuDefined == old(menuDefined)
    {
      threw := false;
      if e.eventType != KeyDown && e.button != 0 {
        return;
      }
      if !disabled {
        DoToggle(e);
        if menu != null && !HasVisibleMenu() && !ignoreNextClick {
          threw := ShowMenuAsWritten(false);
        }
        if !threw {
          FireHandler(vetoed);
        }
      }
    }

    /** `beforeRender()`: sets the disabled attribute and the pressed class; doing it twice is doing it once. */
    method BeforeRender()
      modifies this`disabledAttr, this`classes
      ensures disabledAttr == (old(disabledAttr) || disabled)
      ensures classes == old(classes) + (if pressed then {PressedCls} else {})
    {
      if disabled {
        disabledAttr := true;
      }
      if pressed {
        classes := classes + {PressedCls};
      }
    }

    /** `render()`: `beforeRender`, the base view's rendering, then registration. */
    method Render()
      modifies this`disabledAttr, this`classes, this`rendered, buttonManager
      ensures rendered
      ensures disabledAttr == (old(disabledAttr) || disabled)
      ensures classes == old(classes) + (if pressed then {PressedCls} else {})
      ensures this in buttonManager.items
      ensures old(this in buttonManager.items) ==> buttonManager.items == old(buttonManager.items)
      ensures old(this !in buttonManager.items) ==> buttonManager.items == old(buttonManager.items) + [this]
    {
      BeforeRender();
      rendered := true;
      buttonManager.Register(this);
    }

    /** `delegateEvents(events)`. */
    method DelegateEvents(events: Option<map<string, string>>)
      modifies this`boundEvents
      ensures boundEvents == DelegatedEvents(events, clickEvent)
    {
      var m := if events.Some? then events.value else map[];
      boundEvents := m[clickEvent := OnClickHandler];
    }
  }
}

=== FILE: button_spec.dfy ===
/**
 * The button's behaviour on values: the pressed/released state machine,
 * the click gate, the menu-showing rule and the calls each of them makes.
 * The `Button` class in module `Buttons` is proved to follow these functions;
 * the lemmas here state what the behaviour guarantees over several calls.
 */
module ButtonSpec {
  import opened Wrappers

  /** Class the element carries while the button is pressed (`pressedCls`). */
  const PressedCls: string := "active"
  /** Classes the element starts with (`className`). */
  const BaseClasses: set<string> := {"btn", "btn-default"}
  /** Event type of keyboard activation (ENTER or SPACE). */
  const KeyDown: string := "keydown"
  /** Handler name `delegateEvents` binds to the click event. */
  const OnClickHandler: string := "onClick"

  /** A notification the button fires or a call it makes, in the order made. */
  datatype Call =
    | ToggleEvent(state: bool)    // trigger('toggle', me, state)
    | ToggleHandler(state: bool)  // toggleHandler(state)
    | ClickEvent                  // trigger('click', me, e)
    | Handler                     // handler(e)
    | MenuHide                    // menu.hide()
    | MenuShowBy                  // menu.showBy(me, menuAlign)

  /**
   * The button's menu as the button sees it: whether the menu registry
   * resolves it, whether it is rendered and visible, how many items it has.
   */
  datatype MenuState = MenuState(registered: bool, rendered: bool, visible: bool, itemCount: nat)

  /** What the button's operations read and change. */
  datatype ButtonView = ButtonView(pressed: bool, classes: set<string>, log: seq<Call>, menu: Option<MenuState>)

  /**
   * Configuration the click path reads. `allowDepress` stands for the test
   * `allowDepress !== false`, so an unset option is `true` here.
   */
  datatype Settings = Settings(
    enableToggle: bool,
    allowDepress: bool,
    disabled: bool,
    rendered: bool,
    showEmptyMenu: bool,
    ignoreNextClick: bool,
    hasHandler: bool,
    hasToggleHandler: bool)

  /** A DOM event delivered to `onClick`; `button` is 0 for the primary button and for touch events. */
  datatype DomEvent = DomEvent(eventType: string, button: int)

  /** The view after an operation, and whether the operation threw a TypeError part-way. */
  datatype Run = Run(view: ButtonView, threw: bool)

  /** The notifications of one transition to `state`. */
  function ToggleCalls(state: bool, hasToggleHandler: bool): seq<Call> {
    [ToggleEvent(state)] + (if hasToggleHandler then [ToggleHandler(state)] else [])
  }

  /**
   * `toggle(state, suppressEvent)`: `state` is `None` when no argument is
   * passed and otherwise the truthiness of the argument.
   */
  function Toggle(v: ButtonView, state: Option<bool>, suppressEvent: bool, hasToggleHandler: bool): (r: ButtonView)
    ensures r.pressed == (if state.Some? then state.value else !v.pressed)
    ensures r.pressed == v.pressed ==> r == v
    ensures r.pressed != v.pressed ==> (PressedCls in r.classes <==> r.pressed)
    ensures r.classes - {PressedCls} == v.classes - {PressedCls}
    ensures r.menu == v.menu
    ensures r.pressed != v.pressed && suppressEvent ==> r.log == v.log
    ensures r.pressed != v.pressed && !suppressEvent ==>
      r.log == v.log + [ToggleEvent(r.pressed)] + (if hasToggleHandler then [ToggleHandler(r.pressed)] else [])
  {
    var target := if state.None? then !v.pressed else state.value;
    if target == v.pressed then v
    else
      var classes := if target then v.classes + {PressedCls} else v.classes - {PressedCls};
      var log := if suppressEvent then v.log else v.log + ToggleCalls(target, hasToggleHandler);
      v.(pressed := target, classes := classes, log := log)
  }

  /**
   * `doToggle(e)`: toggles with the event's target wrapped in a jQuery object,
   * which is always truthy, so a click can press a button but never release it.
   */
  function DoToggle(v: ButtonView, s: Settings): (r: ButtonView)
    ensures r.pressed == (v.pressed || s.enableToggle)
    ensures v.pressed || !s.enableToggle ==> r == v
    ensures !v.pressed && s.enableToggle ==>
      r == v.(pressed := true, classes := v.classes + {PressedCls}, log := v.log + ToggleCalls(true, s.hasToggleHandler))
  {
    if s.enableToggle && (s.allowDepress || !v.pressed) then
      Toggle(v, Some(true), false, s.hasToggleHandler)
    else
      v
  }

  /** The calls of `fireHandler(e)` when the 'click' listeners do or do not veto. */
  function HandlerCalls(s: Settings, vetoed: bool): seq<Call> {
    [ClickEvent] + (if s.hasHandler && !vetoed then [Handler] else [])
  }

  /**
   * `fireHandler(e)`: fires 'click' once, then calls the handler when one is
   * configured and no 'click' listener returned false.
   */
  function FireHandler(v: ButtonView, s: Settings, vetoed: bool): (r: ButtonView)
    ensures r.(log := v.log) == v
    ensures v.log <= r.log && |r.log| == |v.log| + (if s.hasHandler && !vetoed then 2 else 1)
    ensures r.log[|v.log|] == ClickEvent
    ensures Handler in r.log[|v.log|..] <==> s.hasHandler && !vetoed
  {
    v.(log := v.log + HandlerCalls(s, vetoed))
  }

  /** `hasVisibleMenu()`. */
  predicate HasVisibleMenu(v: ButtonView) {
    v.menu.Some? && v.menu.value.rendered && v.menu.value.visible
  }

  /** Whether `showMenu(fromEvent)` shows a menu with `itemCount` items. */
  predicate ShowsMenu(s: Settings, fromEvent: bool, itemCount: nat) {
    !fromEvent || s.showEmptyMenu || itemCount > 0
  }

  /** The menu calls of `showMenu`: hide a visible menu first, then maybe show it. */
  function MenuCalls(wasVisible: bool, shown: bool): seq<Call> {
    (if wasVisible then [MenuHide] else []) + (if shown then [MenuShowBy] else [])
  }

  /**
   * `showMenu(fromEvent)`: re-resolves the menu through the menu registry
   * (a menu the registry does not know leaves the button without a menu and
   * throws), and when the button is rendered hides a visible menu and then
   * shows it unless it is empty and the call came from an event. A rendered
   * button without a menu throws on `menu.isVisible()`.
   */
  function ShowMenu(v: ButtonView, s: Settings, fromEvent: bool): (r: Run)
    ensures r.view.pressed == v.pressed && r.view.classes == v.classes
    ensures r.threw <==> (v.menu.None? && s.rendered) || (v.menu.Some? && !v.menu.value.registered)
    ensures r.threw ==> r.view.log == v.log
    ensures !s.rendered && !r.threw ==> r.view == v
    ensures v.menu.None? ==> r.view == v
    ensures v.menu.Some? && !v.menu.value.registered ==> r.view.menu.None?
    ensures v.menu.Some? && v.menu.value.registered && s.rendered ==>
      var m := v.menu.value;
      var shown := ShowsMenu(s, fromEvent, m.itemCount);
      && r.view.menu == Some(m.(visible := shown))
      && r.view.log == v.log + MenuCalls(m.visible, shown)
  {
    match v.menu
    case None => Run(v, s.rendered)
    case Some(m) =>
      if !m.registered then Run(v.(menu := None), true)
      else if !s.rendered then Run(v, false)
      else
        var shown := ShowsMenu(s, fromEvent, m.itemCount);
        Run(v.(menu := Some(m.(visible := shown)), log := v.log + MenuCalls(m.visible, shown)), false)
  }

  /** `maybeShowMenu()`: shows a menu that is not visibly shown, passing no `fromEvent`. */
  function MaybeShowMenu(v: ButtonView, s: Settings): (r: Run)
    ensures v.menu.None? || HasVisibleMenu(v) || s.ignoreNextClick ==> r == Run(v, false)
    ensures v.menu.Some? && !HasVisibleMenu(v) && !s.ignoreNextClick ==> r == ShowMenu(v, s, false)
  {
    if v.menu.Some? && !HasVisibleMenu(v) && !s.ignoreNextClick then ShowMenu(v, s, false)
    else Run(v, false)
  }

  /**
   * Whether `onClick(e)` acts: a non-keyboard event with a non-primary
   * mouse button is ignored, and so is every event on a disabled button.
   */
  predicate Activates(e: DomEvent, s: Settings) {
    !(e.eventType != KeyDown && e.button != 0) && !s.disabled
  }

  /** Order of the three phases of a click: toggle, then menu, then handler. */
  function Phase(c: Call): nat {
    match c
    case ToggleEvent(_) => 0
    case ToggleHandler(_) => 0
    case MenuHide => 1
    case MenuShowBy => 1
    case ClickEvent => 2
    case Handler => 2
  }

  /** The calls in `cs` never go back to an earlier phase. */
  ghost predicate InPhaseOrder(cs: seq<Call>) {
    forall i, j :: 0 <= i < j < |cs| ==> Phase(cs[i]) <= Phase(cs[j])
  }

  /** Every call in `cs` belongs to phase `p`. */
  ghost predicate AllInPhase(cs: seq<Call>, p: nat) {
    forall i :: 0 <= i < |cs| ==> Phase(cs[i]) == p
  }

  /**
   * `onClick(e)`: on an event that activates the button, toggles, then maybe
   * shows the menu, then fires the handler; a TypeError thrown while showing
   * the menu stops the rest.
   */
  function OnClick(v: ButtonView, s: Settings, e: DomEvent, vetoed: bool): (r: Run)
    ensures !Activates(e, s) ==> r == Run(v, false)
    ensures r.view.pressed == (v.pressed || (Activates(e, s) && s.enableToggle))
    ensures r.threw ==> Activates(e, s) && v.menu.Some? && !v.menu.value.registered
  {
    if !Activates(e, s) then Run(v, false)
    else
      var shown := MaybeShowMenu(DoToggle(v, s), s);
      if shown.threw then shown else Run(FireHandler(shown.view, s, vetoed), false)
  }

  /** What `doToggle` appends belongs to the toggle phase. */
  lemma DoToggleAppends(v: ButtonView, s: Settings)
    ensures var t := DoToggle(v, s); v.log <= t.log && AllInPhase(t.log[|v.log|..], 0)
  {
  }

  /** What `maybeShowMenu` appends belongs to the menu phase, and nothing is appended when it throws. */
  lemma MaybeShowMenuAppends(v: ButtonView, s: Settings)
    ensures var r := MaybeShowMenu(v, s);
      && v.log <= r.view.log
      && AllInPhase(r.view.log[|v.log|..], 1)
      && (r.threw ==> r.view.log == v.log)
  {
  }

  /** A call of another phase does not occur among calls of phase `p`. */
  lemma NotInPhase(cs: seq<Call>, p: nat, c: Call)
    requires AllInPhase(cs, p) && Phase(c) != p
    ensures c !in cs
  {
  }

  /** The log of a click that threw while showing the menu: only toggle calls were added. */
  lemma ThrownClickLog(a: seq<Call>, b: seq<Call>)
    requires a <= b && AllInPhase(b[|a|..], 0)
    ensures InPhaseOrder(b[|a|..]) && ClickEvent !in b[|a|..] && Handler !in b[|a|..]
  {
  }

  /** The log of a completed click: toggle calls, then menu calls, then the handler calls. */
  lemma CompletedClickLog(a: seq<Call>, b: seq<Call>, c: seq<Call>, s: Settings, vetoed: bool)
    requires a <= b <= c && AllInPhase(b[|a|..], 0) && AllInPhase(c[|b|..], 1)
    ensures var d := c + HandlerCalls(s, vetoed);
      && a <= d
      && InPhaseOrder(d[|a|..])
      && ClickEvent in d[|a|..]
      && (Handler in d[|a|..] <==> s.hasHandler && !vetoed)
  {
    var h := HandlerCalls(s, vetoed);
    var d := c + h;
    assert d[|c|..] == h;
    assert AllInPhase(h, 2);
    PhaseOrderOfClick(a, b, c, d);
    assert d[|a|..] == b[|a|..] + c[|b|..] + h;
    NotInPhase(b[|a|..], 0, Handler);
    NotInPhase(c[|b|..], 1, Handler);
  }

  /**
   * The calls of a click come in phase order (toggle, menu, handler), and
   * 'click' and the handler are reached exactly when the click activates
   * the button and showing the menu did not throw.
   */
  lemma OnClickCallOrder(v: ButtonView, s: Settings, e: DomEvent, vetoed: bool)
    ensures var r := OnClick(v, s, e, vetoed);
      && v.log <= r.view.log
      && InPhaseOrder(r.view.log[|v.log|..])
      && (ClickEvent in r.view.log[|v.log|..] <==> Activates(e, s) && !r.threw)
      && (Handler in r.view.log[|v.log|..] <==> Activates(e, s) && !r.threw && s.hasHandler && !vetoed)
  {
    if Activates(e, s) {
      var t := DoToggle(v, s);
      var shown := MaybeShowMenu(t, s);
      DoToggleAppends(v, s);
      MaybeShowMenuAppends(t, s);
      if shown.threw {
        ThrownClickLog(v.log, t.log);
      } else {
        CompletedClickLog(v.log, t.log, shown.view.log, s, vetoed);
      }
    } else {
      assert v.log[|v.log|..] == [];
    }
  }

  /** The three pieces a click appends come in phase order. */
  lemma PhaseOrderOfClick(a: seq<Call>, b: seq<Call>, c: seq<Call>, d: seq<Call>)
    requires a <= b <= c <= d
    requires AllInPhase(b[|a|..], 0) && AllInPhase(c[|b|..], 1) && AllInPhase(d[|c|..], 2)
    ensures InPhaseOrder(d[|a|..])
  {
  }

  // ----- counting notifications -----

  /** Number of 'toggle' events in a log. */
  function CountToggleEvents(log: seq<Call>): nat {
    if log == [] then 0
    else (if log[0].ToggleEvent? then 1 else 0) + CountToggleEvents(log[1..])
  }

  lemma {:induction false} CountToggleEventsAppend(a: seq<Call>, b: seq<Call>)
    ensures CountToggleEvents(a + b) == CountToggleEvents(a) + CountToggleEvents(b)
  {
    if a == [] {
      assert a + b == b;
    } else {
      assert (a + b)[1..] == a[1..] + b;
      CountToggleEventsAppend(a[1..], b);
    }
  }

  /** A log without 'toggle' events counts none. */
  lemma {:induction false} NoToggleEvents(log: seq<Call>)
    requires forall i :: 0 <= i < |log| ==> !log[i].ToggleEvent?
    ensures CountToggleEvents(log) == 0
  {
    if log != [] {
      NoToggleEvents(log[1..]);
    }
  }

  /** `n` argument-less toggles in a row, with notifications. */
  function ToggleTimes(v: ButtonView, hasToggleHandler: bool, n: nat): ButtonView {
    if n == 0 then v else Toggle(ToggleTimes(v, hasToggleHandler, n - 1), None, false, hasToggleHandler)
  }

  /**
   * Each argument-less toggle flips the state and fires exactly one 'toggle'
   * event, so `n` of them leave the state flipped iff `n` is odd.
   */
  lemma {:induction false} ToggleTimesFlipsAndCounts(v: ButtonView, hasToggleHandler: bool, n: nat)
    ensures ToggleTimes(v, hasToggleHandler, n).pressed == (if n % 2 == 0 then v.pressed else !v.pressed)
    ensures CountToggleEvents(ToggleTimes(v, hasToggleHandler, n).log) == CountToggleEvents(v.log) + n
    ensures ToggleTimes(v, hasToggleHandler, n).menu == v.menu
  {
    if n > 0 {
      var w := ToggleTimes(v, hasToggleHandler, n - 1);
      ToggleTimesFlipsAndCounts(v, hasToggleHandler, n - 1);
      var r := Toggle(w, None, false, hasToggleHandler);
      var added := ToggleCalls(r.pressed, hasToggleHandler);
      assert r.log == w.log + added;
      CountToggleEventsAppend(w.log, added);
      CountToggleEventsAppend([ToggleEvent(r.pressed)], added[1..]);
      assert added == [ToggleEvent(r.pressed)] + added[1..];
      NoToggleEvents(added[1..]);
      CountToggleEventsAppend([ToggleEvent(r.pressed)], []);
    }
  }

  /**
   * Two argument-less toggles restore the pressed state, fire exactly two
   * 'toggle' events and leave the pressed class in step with the state.
   */
  lemma ToggleTwiceRestores(v: ButtonView, hasToggleHandler: bool)
    ensures var r := Toggle(Toggle(v, None, false, hasToggleHandler), None, false, hasToggleHandler);
      && r.pressed == v.pressed
      && CountToggleEvents(r.log) == CountToggleEvents(v.log) + 2
      && (PressedCls in r.classes <==> r.pressed)
      && r.classes - {PressedCls} == v.classes - {PressedCls}
  {
    ToggleTimesFlipsAndCounts(v, hasToggleHandler, 2);
    assert ToggleTimes(v, hasToggleHandler, 1) == Toggle(v, None, false, hasToggleHandler);
  }

  // ----- sequences of clicks -----

  /**
   * A run of clicks, in order, each with whether its 'click' listeners
   * vetoed. A click that throws ends only its own event handler: the next
   * click starts from the state the thrown one left.
   */
  function Clicks(v: ButtonView, s: Settings, es: seq<DomEvent>, vetoes: seq<bool>): ButtonView
    requires |vetoes| == |es|
    decreases |es|
  {
    if es == [] then v
    else Clicks(OnClick(v, s, es[0], vetoes[0]).view, s, es[1..], vetoes[1..])
  }

  /** Appending calls of the toggle phase adds their 'toggle' events. */
  lemma ToggleCallsCount(a: seq<Call>, state: bool, hasToggleHandler: bool)
    ensures CountToggleEvents(a + ToggleCalls(state, hasToggleHandler)) == CountToggleEvents(a) + 1
  {
    var tc := ToggleCalls(state, hasToggleHandler);
    CountToggleEventsAppend(a, tc);
    assert tc == [ToggleEvent(state)] + tc[1..];
    CountToggleEventsAppend([ToggleEvent(state)], tc[1..]);
    NoToggleEvents(tc[1..]);
    CountToggleEventsAppend([ToggleEvent(state)], []);
  }

  /** Appending calls of a later phase adds no 'toggle' event. */
  lemma LaterPhaseCount(a: seq<Call>, b: seq<Call>, p: nat)
    requires a <= b && AllInPhase(b[|a|..], p) && p != 0
    ensures CountToggleEvents(b) == CountToggleEvents(a)
  {
  }

  /** One click fires a 'toggle' event exactly when it presses a released button. */
  lemma OnClickToggleCount(v: ButtonView, s: Settings, e: DomEvent, vetoed: bool)
    ensures var r := OnClick(v, s, e, vetoed);
      CountToggleEvents(r.view.log) ==
        CountToggleEvents(v.log) + (if !v.pressed && r.view.pressed then 1 else 0)
  {
    if Activates(e, s) {
      var t := DoToggle(v, s);
      var shown := MaybeShowMenu(t, s);
      if !v.pressed && s.enableToggle {
        ToggleCallsCount(v.log, true, s.hasToggleHandler);
      }
      MaybeShowMenuAppends(t, s);
      LaterPhaseCount(t.log, shown.view.log, 1);
      if !shown.threw {
        var d := shown.view.log + HandlerCalls(s, vetoed);
        assert d[|shown.view.log|..] == HandlerCalls(s, vetoed);
        assert AllInPhase(HandlerCalls(s, vetoed), 2);
        LaterPhaseCount(shown.view.log, d, 2);
      }
    }
  }

  /** No run of clicks releases a pressed button. */
  lemma {:induction false} ClicksNeverRelease(v: ButtonView, s: Settings, es: seq<DomEvent>, vetoes: seq<bool>)
    requires v.pressed && |vetoes| == |es|
    ensures Clicks(v, s, es, vetoes).pressed
    decreases |es|
  {
    if es != [] {
      ClicksNeverRelease(OnClick(v, s, es[0], vetoes[0]).view, s, es[1..], vetoes[1..]);
    }
  }

  /**
   * Because a click can only press, a run of clicks fires at most one
   * 'toggle' event, and none at all on a button that starts pressed.
   */
  lemma {:induction false} ClicksToggleAtMostOnce(v: ButtonView, s: Settings, es: seq<DomEvent>, vetoes: seq<bool>)
    requires |vetoes| == |es|
    ensures CountToggleEvents(Clicks(v, s, es, vetoes).log)
      <= CountToggleEvents(v.log) + (if v.pressed then 0 else 1)
    decreases |es|
  {
    if es != [] {
      OnClickToggleCount(v, s, es[0], vetoes[0]);
      ClicksToggleAtMostOnce(OnClick(v, s, es[0], vetoes[0]).view, s, es[1..], vetoes[1..]);
    }
  }

  /**
   * The click path calls `showMenu()` without `fromEvent`, so an empty menu
   * is shown on a click even when `showEmptyMenu` is off.
   */
  lemma ClickShowsEmptyMenu(v: ButtonView, s: Settings, e: DomEvent, vetoed: bool)
    requires Activates(e, s) && s.rendered && !s.ignoreNextClick && !s.showEmptyMenu
    requires v.menu == Some(MenuState(true, true, false, 0))
    ensures OnClick(v, s, e, vetoed).view.menu == Some(MenuState(true, true, true, 0))
  {
    var t := DoToggle(v, s);
    assert t.menu == v.menu;
  }

  /** Called from an event, `showMenu` leaves an empty menu hidden unless `showEmptyMenu` is set. */
  lemma ShowMenuFromEventSuppressesEmpty(v: ButtonView, s: Settings)
    requires s.rendered && v.menu.Some? && v.menu.value.registered && v.menu.value.itemCount == 0
    ensures var r := ShowMenu(v, s, true);
      && r.view.menu.Some?
      && (r.view.menu.value.visible <==> s.showEmptyMenu)
      && (MenuShowBy in r.view.log[|v.log|..] <==> s.showEmptyMenu)
  {
  }

  // ----- the menu path as written -----

  /**
   * `showMenu(fromEvent)` as written: `setMenu` resolves its argument through
   * `Manager`, a name the module never binds, so re-linking a held menu
   * throws a ReferenceError after `delete me.menu`, for a registered menu as
   * much as for an unknown one. Without a menu it is `showMenu` itself.
   */
  function ShowMenuAsWritten(v: ButtonView, s: Settings, fromEvent: bool): (r: Run)
    ensures v.menu.Some? ==> r.threw && r.view == v.(menu := None)
    ensures v.menu.None? ==> r == ShowMenu(v, s, fromEvent)
  {
    match v.menu
    case None => Run(v, s.rendered)
    case Some(_) => Run(v.(menu := None), true)
  }

  /** `onClick(e)` as written: the click path over `ShowMenuAsWritten`. */
  function OnClickAsWritten(v: ButtonView, s: Settings, e: DomEvent, vetoed: bool): (r: Run)
    ensures v.menu.None? ==> r == OnClick(v, s, e, vetoed)
  {
    if !Activates(e, s) then Run(v, false)
    else
      var t := DoToggle(v, s);
      var shown := if t.menu.Some? && !HasVisibleMenu(t) && !s.ignoreNextClick then ShowMenuAsWritten(t, s, false) else Run(t, false);
      if shown.threw then shown else Run(FireHandler(shown.view, s, vetoed), false)
  }

  /**
   * As written, the first click on a button with a hidden menu toggles, then
   * throws: the menu is never shown, 'click' is never fired, and the button
   * is left without a menu, so every later click skips the menu and fires
   * the handler. With `MenuManager` resolving the menu, the same click
   * completes whenever the menu is registered.
   */
  lemma FirstClickDropsMenuAsWritten(v: ButtonView, s: Settings, e: DomEvent, vetoed: bool, e2: DomEvent, vetoed2: bool)
    requires Activates(e, s) && v.menu.Some? && !HasVisibleMenu(v) && !s.ignoreNextClick
    ensures var r := OnClickAsWritten(v, s, e, vetoed);
      && r.threw
      && r.view == DoToggle(v, s).(menu := None)
      && ClickEvent !in r.view.log[|v.log|..]
      && OnClickAsWritten(r.view, s, e2, vetoed2) == OnClick(r.view, s, e2, vetoed2)
      && !OnClickAsWritten(r.view, s, e2, vetoed2).threw
    ensures v.menu.value.registered ==> !OnClick(v, s, e, vetoed).threw
  {
  }

  // ----- events and template data -----

  /**
   * `delegateEvents(events)`: the map handed to the base view is the caller's
   * map (or an empty one) with the click event bound to `onClick`.
   */
  function DelegatedEvents(events: Option<map<string, string>>, clickEvent: string): (r: map<string, string>)
    ensures clickEvent in r && r[clickEvent] == OnClickHandler
    ensures r.Keys == events.GetOr(map[]).Keys + {clickEvent}
    ensures forall k :: k in events.GetOr(map[]) && k != clickEvent ==> r[k] == events.GetOr(map[])[k]
  {
    events.GetOr(map[])[clickEvent := OnClickHandler]
  }

}

=== FILE: date_field.dfy ===
/**
 * The date field: the fallback rules of its value pipeline around the date
 * library, the value it starts with, and where it aligns its picker.
 */
module DateField {
  import opened Wrappers
  import opened JsValues

  /** The display and submission format unless configured (`format`). */
  const DefaultFormat: string := "MM/DD/YYYY"

  /**
   * The date library the field calls, taken as given functions:
   * `parseDate` is `taurus.Date.parseDate(value, format)`, `momentParse` is
   * `moment(text, format)`, `momentOf` is `moment(value)` for a value that is
   * neither a number nor a Date, `format` is `m.format(format)`, and `day` is
   * the calendar day a moment reads as in its own mode (UTC or local).
   */
  datatype DateLibrary = DateLibrary(
    parseDate: (JsValue, string) -> JsValue,
    momentParse: (string, string) -> Moment,
    momentOf: JsValue -> Moment,
    format: (Moment, string) -> string,
    day: Moment -> int)

  /** `moment(value)`: a number or a Date is taken as milliseconds since the epoch, in local mode. */
  function MomentOf(lib: DateLibrary, value: JsValue): Moment {
    match value
    case Num(ms) => Moment(ms, false)
    case DateObj(ms) => Moment(ms, false)
    case _ => lib.momentOf(value)
  }

  /** `m.utc()`: the same instant, read in UTC. */
  function Utc(m: Moment): Moment {
    m.(utcMode := true)
  }

  /** A TypeError thrown by calling a moment method on a value that is not a moment. */
  datatype TypeError = NotAMoment(value: JsValue)

  /** The `{my, at}` pair passed to `doAlign`. */
  datatype Alignment = Alignment(my: string, at: string)

  const LeftAligned: Alignment := Alignment("left top", "left bottom")
  const RightAligned: Alignment := Alignment("right top", "right bottom")

  /**
   * The alignment `alignPicker` chooses: the picker flips to right alignment
   * exactly when, left-aligned at `positionLeft`, it would run past the
   * window's right edge; it is never clamped.
   */
  function ChooseAlignment(pickerWidth: int, positionLeft: int, windowWidth: int): (r: Alignment)
    ensures r == LeftAligned || r == RightAligned
    ensures r == RightAligned <==> positionLeft + pickerWidth > windowWidth
  {
    if pickerWidth + positionLeft > windowWidth then RightAligned else LeftAligned
  }

  /**
   * `parseDate(value)`: a falsy value or a Date is returned as it is;
   * anything else goes through the library, and a falsy result becomes null.
   */
  function ParseDate(lib: DateLibrary, value: JsValue, format: string): (r: JsValue)
    ensures !Truthy(value) || value.DateObj? ==> r == value
    ensures Truthy(value) && !value.DateObj? ==>
      (r == Null <==> !Truthy(lib.parseDate(value, format)))
    ensures Truthy(value) && !value.DateObj? && r != Null ==> r == lib.parseDate(value, format)
    ensures !Truthy(r) ==> r == value || r == Null
  {
    if !Truthy(value) || value.DateObj? then value
    else
      var parsed := lib.parseDate(value, format);
      if Truthy(parsed) then parsed else Null
  }

  /**
   * `getSubmitValue()` of the field's current value: '' for a falsy value,
   * otherwise the value switched to UTC and formatted; a truthy value that is
   * not a moment has no `utc` method and throws.
   */
  function GetSubmitValue(lib: DateLibrary, value: JsValue, format: string): (r: Result<string, TypeError>)
    ensures !Truthy(value) ==> r == Success("")
    ensures value.MomentObj? ==> r == Success(lib.format(Moment(value.moment.epochMs, true), format))
    ensures r.Failure? <==> Truthy(value) && !value.MomentObj?
  {
    if !Truthy(value) then Success("")
    else if value.MomentObj? then Success(lib.format(Utc(value.moment), format))
    else Failure(NotAMoment(value))
  }

  /**
   * `rawToValue(raw)`: the first truthy of the parsed moment and the raw text,
   * else null. A moment is an object and so always truthy: the result is
   * always the parsed moment, valid or not.
   */
  function RawToValue(lib: DateLibrary, raw: string, format: string): (r: JsValue)
    ensures r == MomentObj(lib.momentParse(raw, format))
    ensures Truthy(r)
  {
    Or(Or(MomentObj(lib.momentParse(raw, format)), Str(raw)), Null)
  }

  /** The library reads back, to the same day, every moment it formats with `format`. */
  ghost predicate ReadsBackDays(lib: DateLibrary, format: string) {
    forall m :: lib.day(lib.momentParse(lib.format(m, format), format)) == lib.day(m)
  }

  /**
   * `valueToRaw(value)`: the moment formatted for display; when the library
   * reads back its own format, the text names the moment's day.
   */
  function ValueToRaw(lib: DateLibrary, value: Moment, format: string): (r: string)
    ensures ReadsBackDays(lib, format) ==> lib.day(lib.momentParse(r, format)) == lib.day(value)
  {
    lib.format(value, format)
  }

  /**
   * Converting a value to raw text and back gives a moment on the same day,
   * whenever the library reads back what it writes. The fallbacks of
   * `rawToValue` never take part: the parsed moment is always kept.
   */
  lemma RawRoundTrip(lib: DateLibrary, v: Moment, format: string)
    requires ReadsBackDays(lib, format)
    ensures var back := RawToValue(lib, ValueToRaw(lib, v, format), format);
      back.MomentObj? && lib.day(back.moment) == lib.day(v)
  {
  }

  /**
   * The value `initValue` stores: the current time for a falsy value, a
   * string parsed with the configured format, a millisecond timestamp or a
   * Date taken as that instant in local time, and anything else converted by
   * the library. It is always a moment.
   */
  function InitialValue(lib: DateLibrary, value: JsValue, format: string, now: Moment): (r: JsValue)
    ensures r.MomentObj?
    ensures !Truthy(value) ==> r.moment == now
    ensures Truthy(value) && value.Str? ==> r.moment == lib.momentParse(value.s, format)
    ensures Truthy(value) && value.Num? ==> r.moment == Moment(value.n, false)
    ensures value.DateObj? ==> r.moment == Moment(value.epochMs, false)
    ensures Truthy(value) && !value.Str? && !value.Num? && !value.DateObj? ==> r.moment == lib.momentOf(value)
  {
    if !Truthy(value) then MomentObj(now)
    else if value.Str? then MomentObj(lib.momentParse(value.s, format))
    else MomentObj(MomentOf(lib, value))
  }

  /** After `initValue`, submitting never throws. */
  lemma SubmitAfterInitSucceeds(lib: DateLibrary, value: JsValue, format: string, now: Moment)
    ensures GetSubmitValue(lib, InitialValue(lib, value, format, now), format).Success?
  {
  }

  /**
   * A field created with a millisecond timestamp holds the local moment of
   * that instant and submits the same instant formatted in UTC.
   */
  lemma TimestampValue(lib: DateLibrary, ms: int, format: string, now: Moment)
    requires ms != 0
    ensures InitialValue(lib, Num(ms), format, now) == MomentObj(Moment(ms, false))
    ensures GetSubmitValue(lib, InitialValue(lib, Num(ms), format, now), format)
      == Success(lib.format(Moment(ms, true), format))
  {
  }

  class DateField {
    const format: string
    /** `this.value`. */
    var value: JsValue
    /** The value the picker field's own `initValue` found in `this.value`, per call. */
    var parentInitValues: seq<JsValue>
    /** The alignments passed to `doAlign`, oldest first. */
    var alignments: seq<Alignment>

    constructor (format: Option<string>, value: JsValue)
      ensures this.format == format.GetOr(DefaultFormat) && this.value == value
      ensures parentInitValues == [] && alignments == []
    {
      this.format := format.GetOr(DefaultFormat);
      this.value := value;
      parentInitValues := [];
      alignments := [];
    }

    /**
     * `initValue()`: replaces `this.value` by its moment, then runs the picker
     * field's `initValue`, which finds the new value in place. `now` stands
     * for `moment()`.
     */
    method InitValue(lib: DateLibrary, now: Moment)
      modifies this`value, this`parentInitValues
      ensures value == InitialValue(lib, old(value), format, now)
      ensures parentInitValues == old(parentInitValues) + [value]
    {
      var v := value;
      if !Truthy(v) {
        v := MomentObj(now);
      } else if v.Str? {
        v := MomentObj(lib.momentParse(v.s, format));
      } else {
        v := MomentObj(MomentOf(lib, v));
      }
      value := v;
      parentInitValues := parentInitValues + [value];
    }

    /**
     * `alignPicker()`: measures, chooses an alignment and passes exactly one
     * to `doAlign`. The larger of the two free spaces is computed but does
     * not take part in the choice.
     */
    method AlignPicker(pickerWidth: int, positionLeft: int, positionRight: int, windowWidth: int)
      modifies this`alignments
      ensures alignments == old(alignments) + [ChooseAlignment(pickerWidth, positionLeft, windowWidth)]
    {
      var space := if positionLeft >= positionRight then positionLeft else positionRight;
      var position: Alignment;
      if pickerWidth + positionLeft > windowWidth {
        position := RightAligned;
      } else {
        position := LeftAligned;
      }
      alignments := alignments + [position];
    }
  }
}

=== FILE: js_values.dfy ===
/** JavaScript values as far as the date field tells them apart, and their truthiness. */
module JsValues {

  /**
   * What a moment.js object carries: the instant in milliseconds since the
   * epoch, and whether it reads that instant in UTC or in local time.
   * A moment object is a JavaScript object, so it is truthy even when invalid.
   */
  datatype Moment = Moment(epochMs: int, utcMode: bool)

  /** The JavaScript values the field's value pipeline meets. */
  datatype JsValue =
    | Undefined
    | Null
    | Bool(b: bool)
    | Num(n: int)
    | Str(s: string)
    | DateObj(epochMs: int)
    | MomentObj(moment: Moment)

  /** JavaScript truthiness (`!!v`); NaN is not modelled, numbers are integers. */
  predicate Truthy(v: JsValue) {
    match v
    case Undefined => false
    case Null => false
    case Bool(b) => b
    case Num(n) => n != 0
    case Str(s) => s != ""
    case DateObj(_) => true
    case MomentObj(_) => true
  }

  /** JavaScript `a || b`. */
  function Or(a: JsValue, b: JsValue): JsValue {
    if Truthy(a) then a else b
  }
}

=== FILE: wrappers.dfy ===
/** Optional values and results shared by the button and date-field models. */
module Wrappers {

  /** A value that may be absent (JavaScript `undefined`). */
  datatype Option<+T> = None | Some(value: T) {

    /** The value, or `default` when absent. */
    function GetOr(default: T): T {
      match this
      case Some(v) => v
      case None => default
    }
  }

  /** The outcome of an operation that may throw. */
  datatype Result<+T, +E> = Success(value: T) | Failure(error: E)
}
